=== FILE: README.md ===
# Stock broker price feed and WebSocket command handler

A Dafny model of the two sequential cores of a small stock-price dashboard
backend.

- **Price service** (`Feed`). A fixed universe of five stocks: GOOG, TSLA, AMZN, META and NVDA.
  - Each stock has a price sink and a bounded history.
  - Every generated tick is appended to its stock's history. The oldest entry is evicted once more than ten are held.
  - The tick is then published on the stock's sink.
  - `prices(stock)` is the history snapshot followed by the live ticks, or nothing for an unknown stock.
- **Per-connection command handler** (`Handler`). Each inbound text payload is processed as follows.
  - It is trimmed.
  - If it opens with `{`, it is read as JSON. Otherwise the case-sensitive `SUBSCRIBE:` and `UNSUBSCRIBE:` prefixes are tried.
  - The command word is compared ignoring case, and the stock is upper-cased.
  - For SUBSCRIBE or UNSUBSCRIBE, the connection's subscription table (stock to attachment) is updated and exactly one literal reply is sent. The reply is JSON text whenever the stock holds no quote.
  - A payload with a missing type or stock, or with any other command word such as `PING`, gets no reply and changes nothing (StockWebSocketHandler.java:61, 64, 79: the if/else-if has no final else).
  - A JSON reader failure gets the "Invalid message format" error and leaves the table alone (lines 92-94).
  - Both completion handlers of the connection dispose every attachment in the table.
- **One connection wired to the service** (`Connection`).
  - A new attachment replays the stock's history into the connection's outgoing queue before the `SUBSCRIBED` reply.
  - In this sequential model, each later tick reaches the queue exactly when the connection holds a live attachment to that stock.

Modules:

- `Wrappers`: `Option` and `Result`.
- `Text`: Java's `String.trim`, `startsWith`, `toUpperCase` and `equalsIgnoreCase`.
- `Messages`: the outbound message kinds and their exact wire text.
- `Feed`: the price service.
- `Handler`: the command interpreter, the subscription table and teardown.
- `Connection`: one connection wired to the service.

Modelling choices:

- **JSON reader.** The Jackson reader is a parameter `json: string -> Result<Fields, string>`. Its failure is the only way to reach the handler's catch branch.
- **Attachments.** Reactor `Disposable`s are natural-number handles allocated from a counter. Disposal adds a handle to a set.
- **Outgoing sink.** The connection's outgoing sink is the sequence of messages queued in it.
- **Prices.** The service's history holds structured price updates. `Messages.Render` gives their wire text, and it is proved injective.

A payload in none of the three recognised forms, such as `not json or command`, leaves both fields missing. Like a missing field or an unknown command word, it gets no reply and changes nothing (StockWebSocketHandler.java:61). The only way to get "Invalid message format" is an exception from the JSON reader (lines 92-94). `Handler.ExampleUnsubscribes` proves the silent outcome for that payload, `Handler.StepSilentIff` proves it for every payload without a command, and `Handler.StepInvalidIff` proves the error condition.

## Model

| member | source | states |
|---|---|---|
| Text.Trim | backend/src/main/java/com/stockbroker/handler/StockWebSocketHandler.java:41 | the trimmed payload starts and ends with a character above U+0020 (or is empty) and is no longer than the raw payload |
| Text.TrimSurrounded | backend/src/main/java/com/stockbroker/handler/StockWebSocketHandler.java:41 | trimming removes exactly the blanks around a trimmed core: `Trim(a + m + b) == m` for blank `a`, `b` |
| Text.StartsWith | backend/src/main/java/com/stockbroker/handler/StockWebSocketHandler.java:45-52 | a text starts with a prefix exactly when it is that prefix followed by the rest of the text |
| Text.ToUpper | backend/src/main/java/com/stockbroker/handler/StockWebSocketHandler.java:62 | upper-casing keeps the length, turns each lower-case letter into its capital (32 code points lower), keeps every other character and so leaves no lower-case letter |
| Text.ToUpperIff | backend/src/main/java/com/stockbroker/handler/StockWebSocketHandler.java:62 | a string is the result of upper-casing exactly when it agrees, char by char, with the capital-letter mapping; no other string qualifies |
| Text.EqualsIgnoreCase | backend/src/main/java/com/stockbroker/handler/StockWebSocketHandler.java:64 | words equal ignoring case have the same length, and every word equals itself ignoring case |
| Text.EqualsIgnoreCaseIff | backend/src/main/java/com/stockbroker/handler/StockWebSocketHandler.java:64 | two words are equal ignoring case exactly when their upper-cased forms are equal |
| Messages.Render | backend/src/main/java/com/stockbroker/service/StockPriceService.java:48-53 | the price update built at buildJson and the reply literals of StockWebSocketHandler.java:73, 77, 84, 88 and 94 all open with `{"type":"` and end with `}`; the stock and error text are embedded without escaping, so the text is one JSON object only when they hold no quote |
| Messages.RenderTag | backend/src/main/java/com/stockbroker/handler/StockWebSocketHandler.java:73-94 | the character after `{"type":"` identifies the message kind: P, S, U or E |
| Messages.RenderInjective | backend/src/main/java/com/stockbroker/service/StockPriceService.java:48-53 | two messages with the same wire text are the same message, when price-update stocks contain no quote; the wire text loses nothing |
| Feed.Init | backend/src/main/java/com/stockbroker/service/StockPriceService.java:19-25 | the universe is exactly GOOG, TSLA, AMZN, META, NVDA; each has a registered sink and an empty history |
| Feed.Message | backend/src/main/java/com/stockbroker/service/StockPriceService.java:29 | a tick is published as a price update about its own stock carrying its price text |
| Feed.Record | backend/src/main/java/com/stockbroker/service/StockPriceService.java:30-35 | below capacity the tick is appended and the old history is a prefix; at capacity the result is `h[1..] + [x]`; the length stays at most 10; the last entry is the new tick |
| Feed.RecordElements | backend/src/main/java/com/stockbroker/service/StockPriceService.java:31-34 | a recorded history holds only earlier entries and the new tick |
| Feed.RecordAllIsLastN | backend/src/main/java/com/stockbroker/service/StockPriceService.java:30-35 | recording a sequence of ticks into a bounded history leaves exactly the last 10 of everything recorded, oldest first |
| Feed.Generate | backend/src/main/java/com/stockbroker/service/StockPriceService.java:27-36 | a tick changes only its own stock's history, by recording its message; sinks and other histories are untouched |
| Feed.GeneratePreserves | backend/src/main/java/com/stockbroker/service/StockPriceService.java:30-35 | a tick keeps every history within capacity and made only of updates for its own stock |
| Feed.GenerateAll | backend/src/main/java/com/stockbroker/service/StockPriceService.java:27-36 | any run of ticks registers no new sink and adds no history key |
| Feed.GenerateAllPreserves | backend/src/main/java/com/stockbroker/service/StockPriceService.java:27-36 | any number of ticks keep the histories bounded and consistent |
| Feed.GenerateAllHistory | backend/src/main/java/com/stockbroker/service/StockPriceService.java:27-36 | a stock's history after a run of ticks is its old history with that stock's ticks recorded in order |
| Feed.HistoryIsRecentTicks | backend/src/main/java/com/stockbroker/service/StockPriceService.java:30-35 | from service start, a stock's history is the last min(n, 10) of the n updates generated for it, in generation order |
| Feed.HistoryAfter | backend/src/main/java/com/stockbroker/service/StockPriceService.java:30-35 | from any bounded state, a stock's history after a run is the last 10 of the old history followed by the run's updates |
| Feed.Prices | backend/src/main/java/com/stockbroker/service/StockPriceService.java:40-46 | a registered stock's stream ends with the live updates; the replayed part is at most 10 entries; when the histories are consistent and the live updates are about the stock, every message of the stream is about the stock |
| Feed.PricesFromStart | backend/src/main/java/com/stockbroker/service/StockPriceService.java:40-46 | after any run of ticks since start-up, a stock of the universe streams the last min(n, 10) of its n updates and then the live ones; any other stock streams nothing |
| Feed.LateSubscriberSeesSuffix | backend/src/main/java/com/stockbroker/service/StockPriceService.java:40-46 | a subscriber attaching after some ticks sees a suffix of the stream an earlier subscriber would have seen |
| Handler.Parse | backend/src/main/java/com/stockbroker/handler/StockWebSocketHandler.java:41-59 | a trimmed payload opening with a brace gets exactly the JSON reader's answer; any other payload parses successfully |
| Handler.ParsePlainSubscribe | backend/src/main/java/com/stockbroker/handler/StockWebSocketHandler.java:50-54 | a trimmed `SUBSCRIBE:<rest>` gives the word SUBSCRIBE and the trimmed rest |
| Handler.ParsePlainUnsubscribe | backend/src/main/java/com/stockbroker/handler/StockWebSocketHandler.java:50-57 | a trimmed `UNSUBSCRIBE:<rest>` gives the word UNSUBSCRIBE and the trimmed rest |
| Handler.Interpret | backend/src/main/java/com/stockbroker/handler/StockWebSocketHandler.java:61-64 | fields with a missing type or stock are no command; a command's stock is the upper-cased stock field and has no lower-case letter |
| Handler.CommandOf | backend/src/main/java/com/stockbroker/handler/StockWebSocketHandler.java:44-64 | a payload the JSON reader rejects carries no command; any command a payload carries names a stock with no lower-case letter |
| Handler.InterpretSubscribeIff | backend/src/main/java/com/stockbroker/handler/StockWebSocketHandler.java:61-64 | fields are a subscribe to S exactly when both are present, the word upper-cases to SUBSCRIBE and S is the upper-cased stock |
| Handler.InterpretUnsubscribeIff | backend/src/main/java/com/stockbroker/handler/StockWebSocketHandler.java:61-79 | fields are an unsubscribe from S exactly when both are present, the word upper-cases to UNSUBSCRIBE and S is the upper-cased stock |
| Handler.ApplySubscribe | backend/src/main/java/com/stockbroker/handler/StockWebSocketHandler.java:64-78 | a supported stock is confirmed with SUBSCRIBED; a new attachment is made exactly when the stock is supported and not yet in the table, adding exactly that key with a fresh handle and keeping every other entry; an unsupported stock gets "Unsupported stock: S" and no change |
| Handler.ApplyUnsubscribe | backend/src/main/java/com/stockbroker/handler/StockWebSocketHandler.java:79-90 | a present stock loses exactly its key, its handle is disposed, other entries stay, UNSUBSCRIBED is sent; an absent stock gets "Not subscribed to: S" and no change |
| Handler.Dispatch | backend/src/main/java/com/stockbroker/handler/StockWebSocketHandler.java:61-91 | a reply is sent exactly when the payload carried a command; without one the session is unchanged; no handle is reused and no disposal is undone |
| Handler.Step | backend/src/main/java/com/stockbroker/handler/StockWebSocketHandler.java:44-95 | a payload that carries no command leaves the session unchanged and attaches nothing; no handle is reused and no disposal is undone |
| Handler.StepInvalidIff | backend/src/main/java/com/stockbroker/handler/StockWebSocketHandler.java:92-94 | "Invalid message format" is sent exactly when the trimmed payload opens with a brace and the JSON reader fails, and then nothing changes |
| Handler.StepSilentIff | backend/src/main/java/com/stockbroker/handler/StockWebSocketHandler.java:61 | nothing is sent exactly when the payload parses but carries no command (missing field, unknown word, no recognised form), and then nothing changes |
| Handler.UnrecognisedIgnored | backend/src/main/java/com/stockbroker/handler/StockWebSocketHandler.java:45-61 | a payload in none of the three forms gets no reply and changes nothing |
| Handler.LowercasePrefixIgnored | backend/src/main/java/com/stockbroker/handler/StockWebSocketHandler.java:50-52 | `subscribe:GOOG` is not a command: the prefixes are case-sensitive |
| Handler.PlainSubscribeCommand | backend/src/main/java/com/stockbroker/handler/StockWebSocketHandler.java:50-64 | `SUBSCRIBE:<stock>` carries a subscribe to the upper-cased stock |
| Handler.PaddedSubscribeCommand | backend/src/main/java/com/stockbroker/handler/StockWebSocketHandler.java:52-54 | blanks between `SUBSCRIBE:` and the stock are dropped: `SUBSCRIBE: goog` is a subscribe to GOOG |
| Handler.PlainUnsubscribeCommand | backend/src/main/java/com/stockbroker/handler/StockWebSocketHandler.java:50-79 | `UNSUBSCRIBE:<stock>` carries an unsubscribe from the upper-cased stock |
| Handler.ExampleSubscribes | backend/src/main/java/com/stockbroker/handler/StockWebSocketHandler.java:62-77 | `SUBSCRIBE:goog` on a fresh session attaches GOOG and confirms it upper-cased; `SUBSCRIBE:AAPL` is refused as unsupported with no change |
| Handler.ExampleUnsubscribes | backend/src/main/java/com/stockbroker/handler/StockWebSocketHandler.java:79-94 | unsubscribing GOOG twice confirms and then refuses, and `not json or command` gets no reply and changes nothing |
| Handler.Teardown | backend/src/main/java/com/stockbroker/handler/StockWebSocketHandler.java:98-101 | after teardown every handle in the table is disposed, the disposed set grows by exactly those handles, and the table is kept |
| Handler.TeardownIdempotent | backend/src/main/java/com/stockbroker/handler/StockWebSocketHandler.java:105-107 | the second teardown, from the other completion handler, changes nothing |
| Handler.Fresh | backend/src/main/java/com/stockbroker/handler/StockWebSocketHandler.java:35 | a new connection starts with an empty table, whose keys are trivially supported, and no attachment that could be leaked |
| Handler.FreshValid | backend/src/main/java/com/stockbroker/handler/StockWebSocketHandler.java:35 | a new connection's empty table satisfies the session invariant |
| Handler.KeysAreUppercaseStocks | backend/src/main/java/com/stockbroker/handler/StockWebSocketHandler.java:62-70 | in any session whose keys are supported stocks, torn down or not, every key has no lower-case letter |
| Handler.SubscribePreservesValid | backend/src/main/java/com/stockbroker/handler/StockWebSocketHandler.java:64-78 | subscribing keeps keys supported, handles distinct, live and allocated, and every allocated handle accounted for |
| Handler.UnsubscribePreservesValid | backend/src/main/java/com/stockbroker/handler/StockWebSocketHandler.java:79-90 | unsubscribing keeps the session invariant |
| Handler.StepPreservesValid | backend/src/main/java/com/stockbroker/handler/StockWebSocketHandler.java:40-96 | every payload keeps the session invariant |
| Handler.SubscribeTwice | backend/src/main/java/com/stockbroker/handler/StockWebSocketHandler.java:65-73 | a first subscribe grows the table by one entry with a new, undisposed handle; repeating it changes nothing and still confirms |
| Handler.SubscribeUnsubscribeTwice | backend/src/main/java/com/stockbroker/handler/StockWebSocketHandler.java:79-88 | subscribe, unsubscribe, unsubscribe gives UNSUBSCRIBED then "Not subscribed to", restores the table and leaves the handle disposed |
| Handler.Advance | backend/src/main/java/com/stockbroker/handler/StockWebSocketHandler.java:38-107 | one event, a payload or the send side's teardown, never reuses a handle and never undoes a disposal |
| Handler.Run | backend/src/main/java/com/stockbroker/handler/StockWebSocketHandler.java:38-107 | over any interleaving of payloads and send-side teardowns, handles are never reused and disposals are never undone |
| Handler.RunKeysSupported | backend/src/main/java/com/stockbroker/handler/StockWebSocketHandler.java:62-70 | over any interleaving of payloads and send-side teardowns, the table only holds stocks of the universe |
| Handler.RunKeysAreUppercaseStocks | backend/src/main/java/com/stockbroker/handler/StockWebSocketHandler.java:62-70 | from a new connection, after any events and after the final teardown, every key of the table is an upper-case supported stock |
| Handler.RunAccounted | backend/src/main/java/com/stockbroker/handler/StockWebSocketHandler.java:38-107 | over any interleaving of payloads and send-side teardowns, every allocated handle stays in the table or disposed |
| Handler.NoLeakedAttachments | backend/src/main/java/com/stockbroker/handler/StockWebSocketHandler.java:98-107 | once the receive side tears down, every attachment the connection ever made is disposed |
| Connection.Absorb | backend/src/main/java/com/stockbroker/handler/StockWebSocketHandler.java:66-94 | applying a reaction leaves the service alone and appends to the outgoing queue, ending with the reply if there is one; a reaction that attaches nothing queues exactly its reply and nothing else |
| Connection.Receive | backend/src/main/java/com/stockbroker/handler/StockWebSocketHandler.java:38-96 | a payload leaves the service alone; the last thing it queues is the interpreter's reply, if there is one, and a payload that makes no new attachment queues exactly that reply |
| Connection.UnsubscribeQueuesReply | backend/src/main/java/com/stockbroker/handler/StockWebSocketHandler.java:79-89 | an unsubscribe queues exactly one message: UNSUBSCRIBED for a stock in the table, "Not subscribed to: S" for any other |
| Connection.SubscribeQueuesReply | backend/src/main/java/com/stockbroker/handler/StockWebSocketHandler.java:64-78 | a subscribe to an unsupported stock queues exactly "Unsupported stock: S", and a repeated subscribe queues exactly another SUBSCRIBED |
| Connection.Deliver | backend/src/main/java/com/stockbroker/service/StockPriceService.java:30-36 | a tick appends at most one message, its own update, and appends it exactly when the connection is live on its stock |
| Connection.Live | backend/src/main/java/com/stockbroker/handler/StockWebSocketHandler.java:67-70 | a connection is live on a stock only while its table holds an entry for it; DetachedDelivery and LiveDelivery tie liveness to what the client receives |
| Connection.DeliverAll | backend/src/main/java/com/stockbroker/service/StockPriceService.java:27-36 | ticks only append to the outgoing queue, leave the session alone and advance the service exactly as generating them does |
| Connection.DeliverAllOutbox | backend/src/main/java/com/stockbroker/service/StockPriceService.java:36 | what ticks append is, in order, the message of every tick whose stock the connection is live on |
| Connection.LiveDelivery | backend/src/main/java/com/stockbroker/service/StockPriceService.java:44-45 | while attached, the connection receives every update of the stock, in generation order |
| Connection.DetachedDelivery | backend/src/main/java/com/stockbroker/handler/StockWebSocketHandler.java:80-82 | without a live attachment the connection receives no update of the stock |
| Connection.Start | backend/src/main/java/com/stockbroker/service/StockPriceService.java:21-25 | a started service with a newly opened connection (StockWebSocketHandler.java:34-35) has nothing queued, a history for every registered sink, and is live on no stock |
| Connection.StartValid | backend/src/main/java/com/stockbroker/service/StockPriceService.java:21-25 | a started service with a newly opened connection satisfies both invariants: five registered stocks with bounded, consistent histories, and a sound subscription table |
| Connection.ReceivePreservesValid | backend/src/main/java/com/stockbroker/handler/StockWebSocketHandler.java:40-96 | every inbound payload keeps both invariants |
| Connection.DeliverAllPreservesValid | backend/src/main/java/com/stockbroker/service/StockPriceService.java:27-36 | any run of ticks keeps the service invariant |
| Connection.ValidCanAttach | backend/src/main/java/com/stockbroker/handler/StockWebSocketHandler.java:65-70 | in a reachable state, a supported stock not yet in the table can be attached to: its feed exists, its history is its own, and the next handle is not disposed |
| Connection.SubscribeQueuesReplay | backend/src/main/java/com/stockbroker/handler/StockWebSocketHandler.java:66-73 | a first subscribe queues the stock's history and then SUBSCRIBED, and leaves the connection live on the stock |
| Connection.AttachReplayThenLive | backend/src/main/java/com/stockbroker/service/StockPriceService.java:44-45 | after attaching and any ticks, the updates of the stock that the client gets are exactly `prices(stock)`: the snapshot at attach time followed by the later ticks |
| Connection.ReplayThenLive | backend/src/main/java/com/stockbroker/handler/StockWebSocketHandler.java:64-73 | in a reachable state, any payload carrying a first subscribe leads to exactly replay ++ live updates for that stock |
| Connection.DetachedStaysSilent | backend/src/main/java/com/stockbroker/handler/StockWebSocketHandler.java:80-82 | without a live attachment, ticks add no update of that stock to the queue |
| Connection.UnsubscribeStopsDelivery | backend/src/main/java/com/stockbroker/handler/StockWebSocketHandler.java:80-84 | after any payload carrying an unsubscribe, no later update of that stock reaches the client |
| Connection.TeardownStopsDelivery | backend/src/main/java/com/stockbroker/handler/StockWebSocketHandler.java:98-107 | after teardown no tick of any stock reaches the client |

## Left out

- Reactor scheduling is not modelled: `Flux.interval`, the multicast and unicast sinks, backpressure buffering and `Mono.when`. Payloads and ticks are sequential events, and the outgoing sink is an unbounded queue.
- Concurrency is not modelled: `ConcurrentHashMap` thread safety, and the race between taking the history snapshot and registering on the live sink. Attaching is atomic in the model.
- `Math.random()` and `String.format("%.2f", …)` are floating point and randomness. A tick carries its price text as an opaque string.
- Jackson's `ObjectMapper.readValue` and the `ClientMessage` record are a foreign library and a type outside this model. The reader is the `json` parameter, returning the two optional fields or a failure.
- WebSocket receive and send, logging and Spring wiring are I/O and framework code.
- The multicast sink's buffering and cancellation are not modelled (StockPriceService.java:23). In Reactor, `multicast().onBackpressureBuffer()` holds up to 256 ticks published before its first subscriber and hands them to that subscriber. It also cancels itself once its last subscriber leaves and then publishes nothing more. In the model, a new attachment gets exactly the history and then every later tick, however many attachments came and went before.
- A failed `tryEmitNext` is ignored by the code and not modelled; every emission is queued.
- Several connections sharing one service are not modelled together. Each connection sees the service only through the ticks it is sent.
- Text.ToUpper: upper-cases ASCII letters only, where Java's `toUpperCase` covers all of Unicode and depends on locale. It agrees with Java on the ASCII stock symbols and command words.
- Text.UpperChar: ASCII only, for the same reason.
- Text.EqualsIgnoreCase: compares ASCII letters ignoring case, where Java also folds non-ASCII letters.
- The error replies embed the stock as the code does, without JSON escaping. `Messages.RenderInjective` therefore assumes a price update's stock contains no quote. Every stock the service generates for is such a stock.

=== FILE: connection.dfy ===
/** One client connection wired to the price service: inbound payloads go
    through the command interpreter, a new attachment replays the stock's
    history into the connection's outgoing sink, and each generated tick
    reaches the sink exactly when the connection holds a live attachment to
    that stock. The outgoing sink is modelled as the sequence of messages
    queued in it, in order. */
module Connection {
  import opened Wrappers
  import opened Messages
  import Feed
  import Handler

  datatype World = World(service: Feed.Service, session: Handler.Session, outbox: seq<Outbound>)

  /** Service started, connection just opened: nothing is queued yet and
      the connection is live on no stock. */
  function Start(): (r: World)
    ensures r.outbox == [] && r.service.history.Keys == r.service.sinks
    ensures forall stock :: !Live(r.session, stock)
  {
    World(Feed.Init(), Handler.Fresh(), [])
  }

  /** The connection receives ticks of `stock`: it holds an attachment to it
      that has not been disposed. */
  predicate Live(s: Handler.Session, stock: string): (r: bool)
    ensures r ==> stock in s.subs
  {
    stock in s.subs && s.subs[stock] !in s.disposed
  }

  function Replies(o: Option<Outbound>): seq<Outbound> {
    match o
    case None => []
    case Some(m) => [m]
  }

  /** Applies a reaction of the interpreter. Subscribing to the price
      stream emits its replay synchronously, so the replay is queued before
      the confirmation. */
  function Absorb(w: World, reaction: Handler.Reaction): (r: World)
    ensures r.service == w.service && r.session == reaction.session
    ensures w.outbox <= r.outbox
    ensures |Replies(reaction.reply)| <= |r.outbox| - |w.outbox|
    ensures r.outbox[|r.outbox| - |Replies(reaction.reply)|..] == Replies(reaction.reply)
    ensures reaction.attached.None? ==> r.outbox == w.outbox + Replies(reaction.reply)
  {
    var replay := match reaction.attached
      case Some(stock) => Feed.Prices(w.service, stock, [])
      case None => [];
    World(w.service, reaction.session, w.outbox + replay + Replies(reaction.reply))
  }

  /** One inbound payload. */
  function Receive(w: World, raw: string, json: Handler.JsonReader): (r: World)
    ensures r.service == w.service
    ensures w.outbox <= r.outbox
    ensures var reply := Handler.Step(w.session, raw, json).reply;
            && |Replies(reply)| <= |r.outbox| - |w.outbox|
            && r.outbox[|r.outbox| - |Replies(reply)|..] == Replies(reply)
    ensures Handler.Step(w.session, raw, json).attached.None? ==>
              r.outbox == w.outbox + Replies(Handler.Step(w.session, raw, json).reply)
  {
    Absorb(w, Handler.Step(w.session, raw, json))
  }

  /** One generated tick: recorded into the history and, if the connection is
      attached to its stock, queued for the client. */
  function Deliver(w: World, t: Feed.Tick): (r: World)
    requires t.stock in w.service.history
    ensures r.session == w.session && r.service == Feed.Generate(w.service, t)
    ensures w.outbox <= r.outbox && |r.outbox| <= |w.outbox| + 1
    ensures |r.outbox| > |w.outbox| <==> Live(w.session, t.stock)
    ensures forall m :: m in r.outbox[|w.outbox|..] ==> m == Feed.Message(t)
  {
    World(Feed.Generate(w.service, t), w.session,
          w.outbox + (if Live(w.session, t.stock) then [Feed.Message(t)] else []))
  }

  function DeliverAll(w: World, ts: seq<Feed.Tick>): (r: World)
    requires Feed.AllKnown(w.service, ts)
    ensures r.session == w.session && r.service == Feed.GenerateAll(w.service, ts)
    ensures w.outbox <= r.outbox
    decreases |ts|
  {
    if ts == [] then w else DeliverAll(Deliver(w, ts[0]), ts[1..])
  }

  /** The price updates for `stock` among ms, in order. */
  function UpdatesFor(ms: seq<Outbound>, stock: string): seq<Outbound>
    decreases |ms|
  {
    if ms == [] then []
    else (if Feed.IsUpdateFor(ms[0], stock) then [ms[0]] else []) + UpdatesFor(ms[1..], stock)
  }

  lemma {:induction false} UpdatesForAppend(a: seq<Outbound>, b: seq<Outbound>, stock: string)
    ensures UpdatesFor(a + b, stock) == UpdatesFor(a, stock) + UpdatesFor(b, stock)
    decreases |a|
  {
    if a == [] {
      assert a + b == b;
    } else {
      var first := if Feed.IsUpdateFor(a[0], stock) then [a[0]] else [];
      assert (a + b)[0] == a[0];
      assert (a + b)[1..] == a[1..] + b;
      UpdatesForAppend(a[1..], b, stock);
      calc {
        UpdatesFor(a + b, stock);
        first + UpdatesFor(a[1..] + b, stock);
        first + (UpdatesFor(a[1..], stock) + UpdatesFor(b, stock));
        { Feed.AppendAssoc(first, UpdatesFor(a[1..], stock), UpdatesFor(b, stock)); }
        UpdatesFor(a, stock) + UpdatesFor(b, stock);
      }
    }
  }

  lemma {:induction false} UpdatesForOnly(ms: seq<Outbound>, stock: string)
    requires forall m :: m in ms ==> Feed.IsUpdateFor(m, stock)
    ensures UpdatesFor(ms, stock) == ms
    decreases |ms|
  {
    if ms != [] {
      assert ms[0] in ms;
      assert forall m :: m in ms[1..] ==> m in ms;
      UpdatesForOnly(ms[1..], stock);
    }
  }

  /** The ticks among ts that a connection with session s is sent, as messages. */
  function Delivered(s: Handler.Session, ts: seq<Feed.Tick>): seq<Outbound>
    decreases |ts|
  {
    if ts == [] then []
    else (if Live(s, ts[0].stock) then [Feed.Message(ts[0])] else []) + Delivered(s, ts[1..])
  }

  /** Ticks only add to the outbox, and what they add is what the session is sent. */
  lemma {:induction false} DeliverAllOutbox(w: World, ts: seq<Feed.Tick>)
    requires Feed.AllKnown(w.service, ts)
    ensures DeliverAll(w, ts).outbox == w.outbox + Delivered(w.session, ts)
    decreases |ts|
  {
    if ts != [] {
      var first := if Live(w.session, ts[0].stock) then [Feed.Message(ts[0])] else [];
      var w1 := Deliver(w, ts[0]);
      assert Feed.AllKnown(w1.service, ts[1..]) by {
        assert forall i :: 0 <= i < |ts[1..]| ==> ts[1..][i] == ts[i + 1];
      }
      DeliverAllOutbox(w1, ts[1..]);
      calc {
        DeliverAll(w, ts).outbox;
        DeliverAll(w1, ts[1..]).outbox;
        (w.outbox + first) + Delivered(w.session, ts[1..]);
        { Feed.AppendAssoc(w.outbox, first, Delivered(w.session, ts[1..])); }
        w.outbox + Delivered(w.session, ts);
      }
    }
  }

  /** While attached, a connection is sent every update of the stock, in
      generation order. */
  lemma {:induction false} LiveDelivery(s: Handler.Session, ts: seq<Feed.Tick>, stock: string)
    requires Live(s, stock)
    ensures UpdatesFor(Delivered(s, ts), stock) == Feed.ForStock(ts, stock)
    decreases |ts|
  {
    if ts != [] {
      var first := if Live(s, ts[0].stock) then [Feed.Message(ts[0])] else [];
      LiveDelivery(s, ts[1..], stock);
      UpdatesForAppend(first, Delivered(s, ts[1..]), stock);
      if ts[0].stock == stock {
        assert UpdatesFor(first, stock) == [Feed.Message(ts[0])];
      } else {
        assert UpdatesFor(first, stock) == [] by {
          if first != [] {
            assert UpdatesFor(first[1..], stock) == [];
          }
        }
      }
    }
  }

  /** Without a live attachment, a connection is sent no update of the stock. */
  lemma {:induction false} DetachedDelivery(s: Handler.Session, ts: seq<Feed.Tick>, stock: string)
    requires !Live(s, stock)
    ensures UpdatesFor(Delivered(s, ts), stock) == []
    decreases |ts|
  {
    if ts != [] {
      var first := if Live(s, ts[0].stock) then [Feed.Message(ts[0])] else [];
      DetachedDelivery(s, ts[1..], stock);
      UpdatesForAppend(first, Delivered(s, ts[1..]), stock);
      assert UpdatesFor(first, stock) == [] by {
        if first != [] {
          assert UpdatesFor(first[1..], stock) == [];
        }
      }
    }
  }

  lemma DropPrefix(a: seq<Outbound>, b: seq<Outbound>)
    ensures a <= a + b && (a + b)[|a|..] == b
  {
  }

  /** The reachable shape of the service: the five stocks registered, each
      with a bounded history of its own updates. */
  ghost predicate ServiceValid(svc: Feed.Service) {
    && svc.sinks == Feed.Init().sinks
    && svc.history.Keys == svc.sinks
    && Feed.Bounded(svc)
    && Feed.Consistent(svc)
  }

  /** The opened connection on a started service is in the reachable shape. */
  lemma StartValid()
    ensures ServiceValid(Start().service) && Handler.Valid(Start().session)
  {
    Handler.FreshValid();
  }

  /** A payload keeps the reachable shape. */
  lemma ReceivePreservesValid(w: World, raw: string, json: Handler.JsonReader)
    requires ServiceValid(w.service) && Handler.Valid(w.session)
    ensures ServiceValid(Receive(w, raw, json).service) && Handler.Valid(Receive(w, raw, json).session)
  {
    Handler.StepPreservesValid(w.session, raw, json);
  }

  /** Ticks keep the reachable shape. */
  lemma DeliverAllPreservesValid(w: World, ts: seq<Feed.Tick>)
    requires ServiceValid(w.service) && Feed.AllKnown(w.service, ts)
    ensures ServiceValid(DeliverAll(w, ts).service)
  {
    Feed.GenerateAllPreserves(w.service, ts);
  }

  /** What a first subscribe needs of the state: the stock's feed is
      registered, its history holds its own updates, and the attachment about
      to be allocated has not been disposed. */
  ghost predicate CanAttach(w: World, stock: string) {
    && stock in Feed.Stocks && stock !in w.session.subs
    && stock in w.service.sinks && stock in w.service.history
    && (forall m :: m in w.service.history[stock] ==> Feed.IsUpdateFor(m, stock))
    && w.session.nextHandle !in w.session.disposed
  }

  /** A reachable state can attach to every supported stock not yet subscribed. */
  lemma ValidCanAttach(w: World, stock: string)
    requires ServiceValid(w.service) && Handler.Valid(w.session)
    requires stock in Feed.Stocks && stock !in w.session.subs
    ensures CanAttach(w, stock)
  {
    assert stock in w.service.sinks;
  }

  /** A first subscribe to a supported stock queues the stock's history and
      then the confirmation, and leaves the connection attached. */
  lemma SubscribeQueuesReplay(w: World, stock: string)
    requires CanAttach(w, stock)
    ensures var w1 := Absorb(w, Handler.ApplySubscribe(w.session, stock));
            && w1.outbox == w.outbox + w.service.history[stock] + [Subscribed(stock)]
            && Live(w1.session, stock)
  {
  }

  /** An unsubscribe reaches the client as exactly one reply: UNSUBSCRIBED
      for a stock in the table, the not-subscribed error for any other. */
  lemma UnsubscribeQueuesReply(w: World, raw: string, json: Handler.JsonReader, stock: string)
    requires Handler.CommandOf(raw, json) == Some(Handler.Unsubscribe(stock))
    ensures stock in w.session.subs ==> Receive(w, raw, json).outbox == w.outbox + [Unsubscribed(stock)]
    ensures stock !in w.session.subs ==>
              Receive(w, raw, json).outbox == w.outbox + [Error("Not subscribed to: " + stock)]
  {
    Handler.StepCommand(w.session, raw, json, Handler.Unsubscribe(stock));
  }

  /** A subscribe to an unsupported stock queues exactly the error, and a
      repeated subscribe queues exactly another confirmation. */
  lemma SubscribeQueuesReply(w: World, raw: string, json: Handler.JsonReader, stock: string)
    requires Handler.CommandOf(raw, json) == Some(Handler.Subscribe(stock))
    ensures stock !in Feed.Stocks ==>
              Receive(w, raw, json).outbox == w.outbox + [Error("Unsupported stock: " + stock)]
    ensures stock in Feed.Stocks && stock in w.session.subs ==>
              Receive(w, raw, json).outbox == w.outbox + [Subscribed(stock)]
  {
    Handler.StepCommand(w.session, raw, json, Handler.Subscribe(stock));
  }

  lemma ReplayThenLiveUpdates(h: seq<Outbound>, d: seq<Outbound>, stock: string, live: seq<Outbound>)
    requires forall m :: m in h ==> Feed.IsUpdateFor(m, stock)
    requires UpdatesFor(d, stock) == live
    ensures UpdatesFor(h + ([Subscribed(stock)] + d), stock) == h + live
  {
    var c := [Subscribed(stock)];
    assert UpdatesFor(c, stock) == [] by {
      assert c[1..] == [];
    }
    calc {
      UpdatesFor(h + (c + d), stock);
      { UpdatesForAppend(h, c + d, stock); }
      UpdatesFor(h, stock) + UpdatesFor(c + d, stock);
      { UpdatesForOnly(h, stock); UpdatesForAppend(c, d, stock); }
      h + ([] + live);
      { assert [] + live == live; }
      h + live;
    }
  }

  /** Attaching, then any ticks: the updates the client gets for the stock
      are the replay at attach time followed by the live ticks, which is the
      price stream of that moment; the confirmation sits between the two. */
  lemma AttachReplayThenLive(w: World, stock: string, ts: seq<Feed.Tick>)
    requires CanAttach(w, stock) && Feed.AllKnown(w.service, ts)
    ensures var w2 := DeliverAll(Absorb(w, Handler.ApplySubscribe(w.session, stock)), ts);
            && w.outbox <= w2.outbox
            && UpdatesFor(w2.outbox[|w.outbox|..], stock) == Feed.Prices(w.service, stock, Feed.ForStock(ts, stock))
  {
    var h := w.service.history[stock];
    var w1 := Absorb(w, Handler.ApplySubscribe(w.session, stock));
    SubscribeQueuesReplay(w, stock);
    var d := Delivered(w1.session, ts);
    var tail := h + ([Subscribed(stock)] + d);
    var w2 := DeliverAll(w1, ts);
    assert w2.outbox == w.outbox + tail by {
      DeliverAllOutbox(w1, ts);
      Feed.AppendAssoc(w.outbox + h, [Subscribed(stock)], d);
      Feed.AppendAssoc(w.outbox, h, [Subscribed(stock)] + d);
    }
    DropPrefix(w.outbox, tail);
    assert UpdatesFor(tail, stock) == h + Feed.ForStock(ts, stock) by {
      LiveDelivery(w1.session, ts, stock);
      ReplayThenLiveUpdates(h, d, stock, Feed.ForStock(ts, stock));
    }
  }

  /** For a reachable state and any payload carrying a subscribe to a
      supported stock not yet subscribed: the replay, then the live ticks. */
  lemma ReplayThenLive(w: World, raw: string, json: Handler.JsonReader, stock: string, ts: seq<Feed.Tick>)
    requires ServiceValid(w.service) && Handler.Valid(w.session)
    requires Handler.CommandOf(raw, json) == Some(Handler.Subscribe(stock))
    requires stock in Feed.Stocks && stock !in w.session.subs
    requires Feed.AllKnown(w.service, ts)
    ensures var w2 := DeliverAll(Receive(w, raw, json), ts);
            && w.outbox <= w2.outbox
            && UpdatesFor(w2.outbox[|w.outbox|..], stock) == Feed.Prices(w.service, stock, Feed.ForStock(ts, stock))
  {
    ValidCanAttach(w, stock);
    Handler.StepCommand(w.session, raw, json, Handler.Subscribe(stock));
    assert Receive(w, raw, json) == Absorb(w, Handler.ApplySubscribe(w.session, stock));
    AttachReplayThenLive(w, stock, ts);
  }

  /** Without a live attachment to the stock, ticks only add to the outbox
      and none of what they add is an update of that stock. */
  lemma DetachedStaysSilent(w: World, stock: string, ts: seq<Feed.Tick>)
    requires !Live(w.session, stock) && Feed.AllKnown(w.service, ts)
    ensures var w2 := DeliverAll(w, ts);
            w.outbox <= w2.outbox && UpdatesFor(w2.outbox[|w.outbox|..], stock) == []
  {
    DeliverAllOutbox(w, ts);
    DropPrefix(w.outbox, Delivered(w.session, ts));
    DetachedDelivery(w.session, ts, stock);
  }

  lemma UnsubscribeDetaches(w: World, raw: string, json: Handler.JsonReader, stock: string)
    requires Handler.CommandOf(raw, json) == Some(Handler.Unsubscribe(stock))
    ensures !Live(Receive(w, raw, json).session, stock)
  {
    var r := Handler.Step(w.session, raw, json);
    assert r == Handler.ApplyUnsubscribe(w.session, stock) by {
      Handler.StepCommand(w.session, raw, json, Handler.Unsubscribe(stock));
    }
    assert stock !in r.session.subs;
  }

  /** After an unsubscribe no update of that stock reaches the client. */
  lemma UnsubscribeStopsDelivery(w: World, raw: string, json: Handler.JsonReader, stock: string, ts: seq<Feed.Tick>)
    requires Handler.CommandOf(raw, json) == Some(Handler.Unsubscribe(stock))
    requires Feed.AllKnown(w.service, ts)
    ensures var w1 := Receive(w, raw, json);
            var w2 := DeliverAll(w1, ts);
            w1.outbox <= w2.outbox && UpdatesFor(w2.outbox[|w1.outbox|..], stock) == []
  {
    UnsubscribeDetaches(w, raw, json, stock);
    DetachedStaysSilent(Receive(w, raw, json), stock, ts);
  }

  /** After teardown no tick of any stock reaches the client. */
  lemma TeardownStopsDelivery(w: World, ts: seq<Feed.Tick>)
    requires Feed.AllKnown(w.service, ts)
    ensures DeliverAll(World(w.service, Handler.Teardown(w.session), w.outbox), ts).outbox == w.outbox
  {
    var w1 := World(w.service, Handler.Teardown(w.session), w.outbox);
    DeliverAllOutbox(w1, ts);
    NothingLiveDelivered(w1.session, ts);
  }

  lemma {:induction false} NothingLiveDelivered(s: Handler.Session, ts: seq<Feed.Tick>)
    requires forall k :: k in s.subs ==> s.subs[k] in s.disposed
    ensures Delivered(s, ts) == []
    decreases |ts|
  {
    if ts != [] {
      NothingLiveDelivered(s, ts[1..]);
    }
  }
}

=== FILE: feed.dfy ===
/** The price service: the fixed stock universe, one bounded replay history
    per stock, and the stream a new subscriber observes (the history at the
    moment it subscribes, then every tick generated afterwards). Price
    generation itself is random and is represented by the opaque price text
    of each tick. */
module Feed {
  import opened Messages

  /** The stock universe, in declaration order. */
  const Stocks: seq<string> := ["GOOG", "TSLA", "AMZN", "META", "NVDA"]

  /** Number of past updates kept for replay. */
  const Capacity: nat := 10

  /** One generated observation: the stock and its formatted price text. */
  datatype Tick = Tick(stock: string, price: string)

  /** The update message a tick is published as. */
  function Message(t: Tick): (m: Outbound)
    ensures IsUpdateFor(m, t.stock) && m.price == t.price
  {
    PriceUpdate(t.stock, t.price)
  }

  /** The registered sinks (by stock) and the replay history of each stock. */
  datatype Service = Service(sinks: set<string>, history: map<string, seq<Outbound>>)

  /** The service as its constructor leaves it. */
  function Init(): (svc: Service)
    ensures svc.sinks == {"GOOG", "TSLA", "AMZN", "META", "NVDA"}
    ensures svc.history.Keys == svc.sinks
    ensures forall s :: s in svc.history ==> svc.history[s] == []
  {
    Service(set s | s in Stocks, map s | s in Stocks :: [])
  }

  /** Appends x and, once the length exceeds the capacity, drops the oldest entry. */
  function Record<T>(h: seq<T>, x: T): (r: seq<T>)
    ensures |h| <= Capacity ==> |r| <= Capacity
    ensures |h| < Capacity ==> |r| == |h| + 1 && r[..|h|] == h
    ensures |h| == Capacity ==> r == h[1..] + [x]
    ensures |r| > 0 && r[|r| - 1] == x
  {
    var g := h + [x];
    if |g| > Capacity then g[1..] else g
  }

  /** Recording brings in no element other than the recorded one. */
  lemma RecordElements<T>(h: seq<T>, x: T, y: T)
    requires y in Record(h, x)
    ensures y in h || y == x
  {
  }

  /** The history after recording each of xs in turn. */
  function RecordAll<T>(h: seq<T>, xs: seq<T>): seq<T>
    decreases |xs|
  {
    if xs == [] then h else RecordAll(Record(h, xs[0]), xs[1..])
  }

  /** The last k elements of s, or all of s when it is shorter. */
  function LastN<T>(s: seq<T>, k: nat): (r: seq<T>)
    ensures |r| == if |s| <= k then |s| else k
    ensures r == s[|s| - |r|..]
  {
    if |s| <= k then s else s[|s| - k..]
  }

  lemma LastNAppend<T>(s: seq<T>, x: T, k: nat)
    requires 0 < k && |s| <= k
    ensures LastN(s + [x], k) == if |s| < k then s + [x] else s[1..] + [x]
  {
    if |s| == k {
      assert (s + [x])[1..] == s[1..] + [x];
    }
  }

  lemma LastNOfLastN<T>(a: seq<T>, b: seq<T>, k: nat)
    ensures LastN(LastN(a, k) + b, k) == LastN(a + b, k)
  {
    var la := LastN(a, k);
    assert a == a[..|a| - |la|] + la;
    assert a + b == a[..|a| - |la|] + (la + b);
  }

  /** A history kept within capacity always holds the most recent Capacity
      elements ever recorded into it, oldest first. */
  lemma {:induction false} RecordAllIsLastN<T>(h: seq<T>, xs: seq<T>)
    requires |h| <= Capacity
    ensures RecordAll(h, xs) == LastN(h + xs, Capacity)
    decreases |xs|
  {
    if xs == [] {
      assert h + xs == h;
    } else {
      var h1 := Record(h, xs[0]);
      LastNAppend(h, xs[0], Capacity);
      assert h1 == LastN(h + [xs[0]], Capacity);
      RecordAllIsLastN(h1, xs[1..]);
      LastNOfLastN(h + [xs[0]], xs[1..], Capacity);
      assert [xs[0]] + xs[1..] == xs;
      AppendAssoc(h, [xs[0]], xs[1..]);
    }
  }

  lemma AppendAssoc<T>(a: seq<T>, b: seq<T>, c: seq<T>)
    ensures (a + b) + c == a + (b + c)
  {
  }

  /** Every history is within capacity. */
  ghost predicate Bounded(svc: Service) {
    forall s :: s in svc.history ==> |svc.history[s]| <= Capacity
  }

  /** m is an update message about `stock`. */
  predicate IsUpdateFor(m: Outbound, stock: string) {
    m.PriceUpdate? && m.stock == stock
  }

  /** Every history entry is a price update for the stock it is kept under. */
  ghost predicate Consistent(svc: Service) {
    forall s :: s in svc.history ==> forall m :: m in svc.history[s] ==> IsUpdateFor(m, s)
  }

  /** One tick of the per-stock generator: record it into that stock's history. */
  function Generate(svc: Service, t: Tick): (r: Service)
    requires t.stock in svc.history
    ensures r.sinks == svc.sinks && r.history.Keys == svc.history.Keys
    ensures forall s :: s in svc.history && s != t.stock ==> r.history[s] == svc.history[s]
    ensures r.history[t.stock] == Record(svc.history[t.stock], Message(t))
  {
    Service(svc.sinks, svc.history[t.stock := Record(svc.history[t.stock], Message(t))])
  }

  /** Generation keeps every history bounded and made of its own stock's updates. */
  lemma GeneratePreserves(svc: Service, t: Tick)
    requires t.stock in svc.history
    ensures Bounded(svc) ==> Bounded(Generate(svc, t))
    ensures Consistent(svc) ==> Consistent(Generate(svc, t))
  {
    var r := Generate(svc, t);
    if Consistent(svc) {
      forall m | m in r.history[t.stock]
        ensures IsUpdateFor(m, t.stock)
      {
        RecordElements(svc.history[t.stock], Message(t), m);
      }
    }
  }

  predicate AllKnown(svc: Service, ts: seq<Tick>) {
    forall i :: 0 <= i < |ts| ==> ts[i].stock in svc.history
  }

  /** The service after generating each of ts in turn. */
  function GenerateAll(svc: Service, ts: seq<Tick>): (r: Service)
    requires AllKnown(svc, ts)
    ensures r.sinks == svc.sinks && r.history.Keys == svc.history.Keys
    decreases |ts|
  {
    if ts == [] then svc else GenerateAll(Generate(svc, ts[0]), ts[1..])
  }

  lemma {:induction false} GenerateAllPreserves(svc: Service, ts: seq<Tick>)
    requires AllKnown(svc, ts)
    ensures Bounded(svc) ==> Bounded(GenerateAll(svc, ts))
    ensures Consistent(svc) ==> Consistent(GenerateAll(svc, ts))
    decreases |ts|
  {
    if ts != [] {
      GeneratePreserves(svc, ts[0]);
      GenerateAllPreserves(Generate(svc, ts[0]), ts[1..]);
    }
  }

  /** The update messages of the ticks of one stock, in generation order. */
  function ForStock(ts: seq<Tick>, stock: string): (r: seq<Outbound>)
    ensures |r| <= |ts|
    decreases |ts|
  {
    if ts == [] then []
    else (if ts[0].stock == stock then [Message(ts[0])] else []) + ForStock(ts[1..], stock)
  }

  lemma {:induction false} GenerateAllHistory(svc: Service, ts: seq<Tick>, stock: string)
    requires AllKnown(svc, ts) && stock in svc.history
    ensures GenerateAll(svc, ts).history[stock] == RecordAll(svc.history[stock], ForStock(ts, stock))
    decreases |ts|
  {
    if ts != [] {
      var svc1 := Generate(svc, ts[0]);
      GenerateAllHistory(svc1, ts[1..], stock);
      if ts[0].stock == stock {
        assert ForStock(ts, stock) == [Message(ts[0])] + ForStock(ts[1..], stock);
      } else {
        assert ForStock(ts, stock) == ForStock(ts[1..], stock);
      }
    }
  }

  /** From start-up, the history of a stock is the last min(n, 10) of the n
      updates generated for it, in generation order. */
  lemma HistoryIsRecentTicks(ts: seq<Tick>, stock: string)
    requires AllKnown(Init(), ts) && stock in Stocks
    ensures GenerateAll(Init(), ts).history[stock] == LastN(ForStock(ts, stock), Capacity)
  {
    GenerateAllHistory(Init(), ts, stock);
    RecordAllIsLastN([], ForStock(ts, stock));
    assert [] + ForStock(ts, stock) == ForStock(ts, stock);
  }

  /** The stream a subscriber to `stock` observes: nothing for an unknown
      stock, otherwise the history at subscription time followed by the live
      updates published after it. */
  function Prices(svc: Service, stock: string, live: seq<Outbound>): (r: seq<Outbound>)
    ensures stock in svc.sinks ==> |live| <= |r| && r[|r| - |live|..] == live
    ensures Bounded(svc) ==> |r| <= Capacity + |live|
    ensures Consistent(svc) && (forall m :: m in live ==> IsUpdateFor(m, stock)) ==>
              forall m :: m in r ==> IsUpdateFor(m, stock)
  {
    if stock !in svc.sinks then []
    else (if stock in svc.history then svc.history[stock] else []) + live
  }

  /** What a subscriber sees once the service has generated ts since
      start-up: for a stock of the universe, the last min(n, 10) of its n
      updates so far followed by the live ones; for any other stock, nothing. */
  lemma PricesFromStart(ts: seq<Tick>, stock: string, live: seq<Outbound>)
    requires AllKnown(Init(), ts)
    ensures stock in Stocks ==> Prices(GenerateAll(Init(), ts), stock, live) == LastN(ForStock(ts, stock), Capacity) + live
    ensures stock !in Stocks ==> Prices(GenerateAll(Init(), ts), stock, live) == []
  {
    if stock in Stocks {
      HistoryIsRecentTicks(ts, stock);
    }
  }

  /** s ends with t. */
  ghost predicate IsSuffix<T>(t: seq<T>, s: seq<T>) {
    |t| <= |s| && t == s[|s| - |t|..]
  }

  lemma LastNThenRestIsSuffix<T>(a: seq<T>, b: seq<T>, k: nat)
    ensures IsSuffix(LastN(a, k) + b, a + b)
  {
    var l := LastN(a, k);
    assert a == a[..|a| - |l|] + l;
    assert a + b == a[..|a| - |l|] + (l + b);
  }

  /** The history of a stock after more ticks, from any bounded start. */
  lemma HistoryAfter(svc: Service, stock: string, ts: seq<Tick>)
    requires Bounded(svc) && AllKnown(svc, ts) && stock in svc.history
    ensures GenerateAll(svc, ts).history[stock] == LastN(svc.history[stock] + ForStock(ts, stock), Capacity)
  {
    GenerateAllHistory(svc, ts, stock);
    RecordAllIsLastN(svc.history[stock], ForStock(ts, stock));
  }

  /** A later subscriber misses nothing recent: its replay followed by the
      updates generated after it subscribed is a suffix of what an earlier
      subscriber to the same stock observes over the same period. */
  lemma LateSubscriberSeesSuffix(svc: Service, stock: string, before: seq<Tick>, after: seq<Tick>)
    requires Bounded(svc) && AllKnown(svc, before) && stock in svc.history
    ensures IsSuffix(GenerateAll(svc, before).history[stock] + ForStock(after, stock),
                     svc.history[stock] + ForStock(before, stock) + ForStock(after, stock))
  {
    var h0, f1, f2 := svc.history[stock], ForStock(before, stock), ForStock(after, stock);
    HistoryAfter(svc, stock, before);
    LastNThenRestIsSuffix(h0 + f1, f2, Capacity);
  }
}

=== FILE: handler.dfy ===
/** The per-connection command interpreter of the websocket handler: it
    classifies each inbound text payload as a JSON or plain-text command,
    runs the subscribe/unsubscribe state machine over the session's table of
    attachments, answers with at most one reply, and disposes every
    attachment when the connection ends. */
module Handler {
  import opened Wrappers
  import opened Text
  import opened Messages
  import Feed

  /** The Disposable returned when the session subscribes to a price stream,
      identified by allocation order. */
  type Handle = nat

  /** `subs` maps a stock to its attachment, `disposed` holds the
      attachments disposed so far and `nextHandle` is the next one to
      allocate, so every attachment ever created is below it. */
  datatype Session = Session(subs: map<string, Handle>, disposed: set<Handle>, nextHandle: Handle)

  /** The session state when the connection opens: an empty table, and no
      attachment made yet that could be leaked. */
  function Fresh(): (s: Session)
    ensures s.subs == map[] && KeysSupported(s) && Accounted(s)
  {
    Session(map[], {}, 0)
  }

  /** The two fields of a parsed client message; either may be missing. */
  datatype Fields = Fields(kind: Option<string>, stock: Option<string>)

  /** The JSON reader: the fields of a message, or the exception it throws. */
  type JsonReader = string -> Result<Fields, string>

  datatype Command = Subscribe(stock: string) | Unsubscribe(stock: string)

  /** The effect of one payload: the new session, the reply sent back (if
      any) and the stock a new attachment was made to (if any). */
  datatype Reaction = Reaction(session: Session, reply: Option<Outbound>, attached: Option<string>)

  const SubscribeWord := "SUBSCRIBE"
  const UnsubscribeWord := "UNSUBSCRIBE"
  const SubscribePrefix := "SUBSCRIBE:"
  const UnsubscribePrefix := "UNSUBSCRIBE:"
  const InvalidFormat := "Invalid message format"

  /** The fields of a payload. After trimming, a payload opening with a brace
      goes to the JSON reader, whose failure is the only failure here; one
      starting with either plain-text prefix (matched case-sensitively)
      yields that command word and the trimmed remainder; anything else
      yields no fields. */
  function Parse(raw: string, json: JsonReader): (r: Result<Fields, string>)
    ensures StartsWith(Trim(raw), "{") ==> r == json(Trim(raw))
    ensures !StartsWith(Trim(raw), "{") ==> r.Success?
  {
    var payload := Trim(raw);
    if StartsWith(payload, "{") then json(payload)
    else if StartsWith(payload, SubscribePrefix) || StartsWith(payload, UnsubscribePrefix) then
      if StartsWith(payload, SubscribePrefix) then
        Success(Fields(Some(SubscribeWord), Some(Trim(payload[|SubscribePrefix|..]))))
      else
        Success(Fields(Some(UnsubscribeWord), Some(Trim(payload[|UnsubscribePrefix|..]))))
    else Success(Fields(None, None))
  }

  lemma FirstCharDiffers(s: string, prefix: string)
    requires |s| > 0 && |prefix| > 0 && s[0] != prefix[0]
    ensures !StartsWith(s, prefix)
  {
  }

  /** A trimmed payload `SUBSCRIBE:<rest>` is a subscribe command for the trimmed rest. */
  lemma ParsePlainSubscribe(raw: string, rest: string, json: JsonReader)
    requires Trim(raw) == SubscribePrefix + rest
    ensures Parse(raw, json) == Success(Fields(Some(SubscribeWord), Some(Trim(rest))))
  {
    var p := Trim(raw);
    PrefixedStartsWith(SubscribePrefix, rest);
    PrefixIndex(SubscribePrefix, rest, 0);
    FirstCharDiffers(p, "{");
    assert p[|SubscribePrefix|..] == rest;
  }

  /** A trimmed payload `UNSUBSCRIBE:<rest>` is an unsubscribe command for the trimmed rest. */
  lemma ParsePlainUnsubscribe(raw: string, rest: string, json: JsonReader)
    requires Trim(raw) == UnsubscribePrefix + rest
    ensures Parse(raw, json) == Success(Fields(Some(UnsubscribeWord), Some(Trim(rest))))
  {
    var p := Trim(raw);
    PrefixedStartsWith(UnsubscribePrefix, rest);
    PrefixIndex(UnsubscribePrefix, rest, 0);
    FirstCharDiffers(p, "{");
    FirstCharDiffers(p, SubscribePrefix);
    assert p[|UnsubscribePrefix|..] == rest;
  }

  /** The command the fields stand for: both fields present and the command
      word equal, ignoring case, to one of the two words. The stock is
      upper-cased. */
  function Interpret(f: Fields): (r: Option<Command>)
    ensures f.kind.None? || f.stock.None? ==> r == None
    ensures r.Some? ==> NoLowercase(r.value.stock) && r.value.stock == ToUpper(f.stock.value)
  {
    match f
    case Fields(Some(kind), Some(stock)) =>
      var upper := ToUpper(stock);
      if EqualsIgnoreCase(SubscribeWord, kind) then Some(Subscribe(upper))
      else if EqualsIgnoreCase(UnsubscribeWord, kind) then Some(Unsubscribe(upper))
      else None
    case _ => None
  }

  lemma WordMatch(word: string, kind: string)
    requires NoLowercase(word)
    ensures EqualsIgnoreCase(word, kind) <==> ToUpper(kind) == word
  {
    EqualsIgnoreCaseIff(word, kind);
    ToUpperFixes(word);
  }

  /** Fields stand for a subscribe exactly when both are present and the
      word upper-cases to SUBSCRIBE; the stock is the upper-cased field. */
  lemma InterpretSubscribeIff(f: Fields, stock: string)
    ensures Interpret(f) == Some(Subscribe(stock)) <==>
            f.kind.Some? && f.stock.Some? && ToUpper(f.kind.value) == SubscribeWord && stock == ToUpper(f.stock.value)
  {
    if f.kind.Some? {
      WordMatch(SubscribeWord, f.kind.value);
    }
  }

  /** Fields stand for an unsubscribe exactly when both are present and the
      word upper-cases to UNSUBSCRIBE; the stock is the upper-cased field. */
  lemma InterpretUnsubscribeIff(f: Fields, stock: string)
    ensures Interpret(f) == Some(Unsubscribe(stock)) <==>
            f.kind.Some? && f.stock.Some? && ToUpper(f.kind.value) == UnsubscribeWord && stock == ToUpper(f.stock.value)
  {
    if f.kind.Some? {
      WordMatch(SubscribeWord, f.kind.value);
      WordMatch(UnsubscribeWord, f.kind.value);
    }
  }

  /** The command a payload carries, if it parses to one. */
  function CommandOf(raw: string, json: JsonReader): (r: Option<Command>)
    ensures Parse(raw, json).Failure? ==> r == None
    ensures r.Some? ==> NoLowercase(r.value.stock)
  {
    match Parse(raw, json)
    case Success(f) => Interpret(f)
    case Failure(_) => None
  }

  /** Subscribing: an unknown stock is refused; a supported one not yet in
      the table gets a new attachment; a supported one already present is
      left as it is. Both supported cases confirm. */
  function ApplySubscribe(s: Session, stock: string): (r: Reaction)
    ensures stock in Feed.Stocks ==> r.reply == Some(Subscribed(stock))
    ensures stock !in Feed.Stocks ==> r.reply == Some(Error("Unsupported stock: " + stock)) && r.session == s
    ensures stock in s.subs ==> r.session == s
    ensures r.attached.Some? <==> stock in Feed.Stocks && stock !in s.subs
    ensures r.attached.Some? ==>
              && r.attached.value == stock
              && r.session.subs.Keys == s.subs.Keys + {stock}
              && (forall k :: k in s.subs ==> r.session.subs[k] == s.subs[k])
              && r.session.disposed == s.disposed
              && s.nextHandle <= r.session.subs[stock] < r.session.nextHandle
  {
    if stock in Feed.Stocks then
      if stock !in s.subs then
        var s' := Session(s.subs[stock := s.nextHandle], s.disposed, s.nextHandle + 1);
        Reaction(s', Some(Subscribed(stock)), Some(stock))
      else Reaction(s, Some(Subscribed(stock)), None)
    else Reaction(s, Some(Error("Unsupported stock: " + stock)), None)
  }

  /** Unsubscribing: a stock in the table loses its entry and its attachment
      is disposed; any other stock is reported as not subscribed. */
  function ApplyUnsubscribe(s: Session, stock: string): (r: Reaction)
    ensures r.attached == None
    ensures stock in s.subs ==>
              && r.reply == Some(Unsubscribed(stock))
              && r.session.subs.Keys == s.subs.Keys - {stock}
              && (forall k :: k in r.session.subs ==> r.session.subs[k] == s.subs[k])
              && r.session.disposed == s.disposed + {s.subs[stock]}
              && r.session.nextHandle == s.nextHandle
    ensures stock !in s.subs ==> r.reply == Some(Error("Not subscribed to: " + stock)) && r.session == s
  {
    if stock in s.subs then
      var s' := Session(s.subs - {stock}, s.disposed + {s.subs[stock]}, s.nextHandle);
      Reaction(s', Some(Unsubscribed(stock)), None)
    else Reaction(s, Some(Error("Not subscribed to: " + stock)), None)
  }

  /** Runs a command, if there is one; no command means no reply. */
  function Dispatch(s: Session, c: Option<Command>): (r: Reaction)
    ensures r.reply == None <==> c == None
    ensures c == None ==> r.session == s && r.attached == None
    ensures s.nextHandle <= r.session.nextHandle && s.disposed <= r.session.disposed
  {
    match c
    case None => Reaction(s, None, None)
    case Some(Subscribe(stock)) => ApplySubscribe(s, stock)
    case Some(Unsubscribe(stock)) => ApplyUnsubscribe(s, stock)
  }

  /** One inbound payload. A reader failure is reported as an invalid
      format and changes nothing; a payload that carries no command is
      ignored silently. */
  function Step(s: Session, raw: string, json: JsonReader): (r: Reaction)
    ensures CommandOf(raw, json) == None ==> r.session == s && r.attached == None
    ensures s.nextHandle <= r.session.nextHandle && s.disposed <= r.session.disposed
  {
    match Parse(raw, json)
    case Failure(_) => Reaction(s, Some(Error(InvalidFormat)), None)
    case Success(f) => Dispatch(s, Interpret(f))
  }

  /** The invalid-format error is sent exactly when the trimmed payload opens
      with a brace and the JSON reader fails on it; no other branch can
      produce that text. */
  lemma StepInvalidIff(s: Session, raw: string, json: JsonReader)
    ensures Step(s, raw, json).reply == Some(Error(InvalidFormat)) <==>
            StartsWith(Trim(raw), "{") && json(Trim(raw)).Failure?
    ensures Step(s, raw, json).reply == Some(Error(InvalidFormat)) ==> Step(s, raw, json).session == s
  {
    match Parse(raw, json)
    case Failure(_) =>
    case Success(f) =>
      DispatchNeverInvalid(s, Interpret(f));
  }

  lemma DispatchNeverInvalid(s: Session, c: Option<Command>)
    ensures Dispatch(s, c).reply != Some(Error(InvalidFormat))
  {
    match c
    case None =>
    case Some(Subscribe(stock)) =>
      PrefixIndex("Unsupported stock: ", stock, 0);
      assert ("Unsupported stock: " + stock)[0] != InvalidFormat[0];
    case Some(Unsubscribe(stock)) =>
      PrefixIndex("Not subscribed to: ", stock, 0);
      assert ("Not subscribed to: " + stock)[0] != InvalidFormat[0];
  }

  /** Nothing is sent exactly when the payload parses but carries no command
      (no recognised form, a missing field, or an unknown word); the session
      is then unchanged. */
  lemma StepSilentIff(s: Session, raw: string, json: JsonReader)
    ensures Step(s, raw, json).reply == None <==> Parse(raw, json).Success? && CommandOf(raw, json) == None
    ensures Step(s, raw, json).reply == None ==> Step(s, raw, json).session == s
  {
  }

  /** A payload in none of the three forms is ignored: no reply, no change. */
  lemma UnrecognisedIgnored(s: Session, raw: string, json: JsonReader)
    requires !StartsWith(Trim(raw), "{")
    requires !StartsWith(Trim(raw), SubscribePrefix) && !StartsWith(Trim(raw), UnsubscribePrefix)
    ensures Step(s, raw, json) == Reaction(s, None, None)
  {
  }

  /** A payload with no surrounding blanks is its own trimmed form. */
  lemma TrimmedPayload(p: string)
    requires IsTrimmed(p)
    ensures Trim(p) == p
  {
    assert [] + p + [] == p;
    TrimSurrounded([], p, []);
  }

  /** Java's exact plain-text prefixes: a lower-case command word is not a command. */
  lemma LowercasePrefixIgnored(s: Session, json: JsonReader)
    ensures Step(s, "subscribe:GOOG", json) == Reaction(s, None, None)
  {
    var p := "subscribe:GOOG";
    assert IsTrimmed(p);
    TrimmedPayload(p);
    FirstCharDiffers(p, "{");
    FirstCharDiffers(p, SubscribePrefix);
    FirstCharDiffers(p, UnsubscribePrefix);
    UnrecognisedIgnored(s, p, json);
  }

  lemma PlainPayload(prefix: string, stock: string)
    requires prefix != [] && !IsTrimmable(prefix[0])
    requires stock != [] && IsTrimmed(stock)
    ensures Trim(prefix + stock) == prefix + stock && Trim(stock) == stock
  {
    var p := prefix + stock;
    assert p[0] == prefix[0] && p[|p| - 1] == stock[|stock| - 1];
    TrimmedPayload(p);
    TrimmedPayload(stock);
  }

  lemma WordsAreUpper()
    ensures ToUpper(SubscribeWord) == SubscribeWord && ToUpper(UnsubscribeWord) == UnsubscribeWord
  {
    assert NoLowercase(SubscribeWord);
    ToUpperFixes(SubscribeWord);
    assert NoLowercase(UnsubscribeWord);
    ToUpperFixes(UnsubscribeWord);
  }

  /** `SUBSCRIBE:<stock>` carries a subscribe to the upper-cased stock. */
  lemma PlainSubscribeCommand(stock: string, json: JsonReader)
    requires stock != [] && IsTrimmed(stock)
    ensures CommandOf(SubscribePrefix + stock, json) == Some(Subscribe(ToUpper(stock)))
  {
    var f := Fields(Some(SubscribeWord), Some(stock));
    assert Parse(SubscribePrefix + stock, json) == Success(f) by {
      PlainPayload(SubscribePrefix, stock);
      ParsePlainSubscribe(SubscribePrefix + stock, stock, json);
    }
    assert Interpret(f) == Some(Subscribe(ToUpper(stock))) by {
      WordsAreUpper();
      InterpretSubscribeIff(f, ToUpper(stock));
    }
  }

  /** The remainder after `SUBSCRIBE:` is trimmed again: blanks between the
      colon and the stock are dropped. */
  lemma PaddedSubscribeCommand(pad: string, stock: string, json: JsonReader)
    requires AllTrimmable(pad) && stock != [] && IsTrimmed(stock)
    ensures CommandOf(SubscribePrefix + pad + stock, json) == Some(Subscribe(ToUpper(stock)))
  {
    var rest := pad + stock;
    var f := Fields(Some(SubscribeWord), Some(stock));
    assert Trim(rest) == stock by {
      assert pad + stock + [] == rest;
      TrimSurrounded(pad, stock, []);
    }
    assert Parse(SubscribePrefix + pad + stock, json) == Success(f) by {
      var raw := SubscribePrefix + rest;
      Feed.AppendAssoc(SubscribePrefix, pad, stock);
      assert raw[0] == 'S' && raw[|raw| - 1] == stock[|stock| - 1];
      TrimmedPayload(raw);
      ParsePlainSubscribe(raw, rest, json);
    }
    assert Interpret(f) == Some(Subscribe(ToUpper(stock))) by {
      WordsAreUpper();
      InterpretSubscribeIff(f, ToUpper(stock));
    }
  }

  /** `UNSUBSCRIBE:<stock>` carries an unsubscribe from the upper-cased stock. */
  lemma PlainUnsubscribeCommand(stock: string, json: JsonReader)
    requires stock != [] && IsTrimmed(stock)
    ensures CommandOf(UnsubscribePrefix + stock, json) == Some(Unsubscribe(ToUpper(stock)))
  {
    var f := Fields(Some(UnsubscribeWord), Some(stock));
    assert Parse(UnsubscribePrefix + stock, json) == Success(f) by {
      PlainPayload(UnsubscribePrefix, stock);
      ParsePlainUnsubscribe(UnsubscribePrefix + stock, stock, json);
    }
    assert Interpret(f) == Some(Unsubscribe(ToUpper(stock))) by {
      WordsAreUpper();
      InterpretUnsubscribeIff(f, ToUpper(stock));
    }
  }

  lemma LowercaseStockStep(s: Session, json: JsonReader)
    ensures Step(s, "SUBSCRIBE:goog", json) == ApplySubscribe(s, "GOOG")
  {
    assert "SUBSCRIBE:goog" == SubscribePrefix + "goog";
    assert IsTrimmed("goog");
    assert ToUpper("goog") == "GOOG";
    PlainSubscribeCommand("goog", json);
    StepCommand(s, "SUBSCRIBE:goog", json, Subscribe("GOOG"));
  }

  lemma UnsupportedStockStep(s: Session, json: JsonReader)
    ensures Step(s, "SUBSCRIBE:AAPL", json) == ApplySubscribe(s, "AAPL")
  {
    assert "SUBSCRIBE:AAPL" == SubscribePrefix + "AAPL";
    assert IsTrimmed("AAPL");
    assert ToUpper("AAPL") == "AAPL";
    PlainSubscribeCommand("AAPL", json);
    StepCommand(s, "SUBSCRIBE:AAPL", json, Subscribe("AAPL"));
  }

  lemma UnsubscribeStockStep(s: Session, json: JsonReader)
    ensures Step(s, "UNSUBSCRIBE:GOOG", json) == ApplyUnsubscribe(s, "GOOG")
  {
    assert "UNSUBSCRIBE:GOOG" == UnsubscribePrefix + "GOOG";
    assert IsTrimmed("GOOG");
    assert ToUpper("GOOG") == "GOOG";
    PlainUnsubscribeCommand("GOOG", json);
    StepCommand(s, "UNSUBSCRIBE:GOOG", json, Unsubscribe("GOOG"));
  }

  lemma FreeTextStep(s: Session, json: JsonReader)
    ensures Step(s, "not json or command", json) == Reaction(s, None, None)
  {
    var p := "not json or command";
    assert IsTrimmed(p);
    TrimmedPayload(p);
    FirstCharDiffers(p, "{");
    FirstCharDiffers(p, SubscribePrefix);
    FirstCharDiffers(p, UnsubscribePrefix);
    UnrecognisedIgnored(s, p, json);
  }

  /** The literal facts the example session rests on: GOOG is a stock of
      the universe, AAPL is not, and the two error texts it produces. */
  lemma ExampleFacts()
    ensures "GOOG" in Feed.Stocks && "AAPL" !in Feed.Stocks
    ensures "Unsupported stock: " + "AAPL" == "Unsupported stock: AAPL"
    ensures "Not subscribed to: " + "GOOG" == "Not subscribed to: GOOG"
  {
  }

  /** The first two payloads of a session: a lower-case supported stock is
      attached and confirmed under its upper-case name; an unsupported
      stock is refused and changes nothing. */
  lemma ExampleSubscribes(json: JsonReader)
    ensures Step(Fresh(), "SUBSCRIBE:goog", json) ==
            Reaction(Session(map["GOOG" := 0], {}, 1), Some(Subscribed("GOOG")), Some("GOOG"))
    ensures Step(Session(map["GOOG" := 0], {}, 1), "SUBSCRIBE:AAPL", json) ==
            Reaction(Session(map["GOOG" := 0], {}, 1), Some(Error("Unsupported stock: AAPL")), None)
  {
    var s1 := Session(map["GOOG" := 0], {}, 1);
    ExampleFacts();
    assert ApplySubscribe(Fresh(), "GOOG") == Reaction(s1, Some(Subscribed("GOOG")), Some("GOOG"));
    LowercaseStockStep(Fresh(), json);
    assert ApplySubscribe(s1, "AAPL") == Reaction(s1, Some(Error("Unsupported stock: AAPL")), None);
    UnsupportedStockStep(s1, json);
  }

  /** Continuing: the first unsubscribe disposes the attachment and
      confirms, the second is refused, and a payload in no recognised form
      gets no reply at all. */
  lemma ExampleUnsubscribes(json: JsonReader)
    ensures Step(Session(map["GOOG" := 0], {}, 1), "UNSUBSCRIBE:GOOG", json) ==
            Reaction(Session(map[], {0}, 1), Some(Unsubscribed("GOOG")), None)
    ensures Step(Session(map[], {0}, 1), "UNSUBSCRIBE:GOOG", json) ==
            Reaction(Session(map[], {0}, 1), Some(Error("Not subscribed to: GOOG")), None)
    ensures Step(Session(map[], {0}, 1), "not json or command", json) ==
            Reaction(Session(map[], {0}, 1), None, None)
  {
    var s1, s3 := Session(map["GOOG" := 0], {}, 1), Session(map[], {0}, 1);
    assert ApplyUnsubscribe(s1, "GOOG") == Reaction(s3, Some(Unsubscribed("GOOG")), None) by {
      assert s1.subs - {"GOOG"} == map[];
      assert s1.disposed + {s1.subs["GOOG"]} == {0};
    }
    UnsubscribeStockStep(s1, json);
    assert ApplyUnsubscribe(s3, "GOOG") == Reaction(s3, Some(Error("Not subscribed to: GOOG")), None) by {
      ExampleFacts();
    }
    UnsubscribeStockStep(s3, json);
    FreeTextStep(s3, json);
  }

  /** Tearing the session down disposes every attachment still in the table
      and nothing else; the table itself is kept. */
  function Teardown(s: Session): (r: Session)
    ensures r.subs == s.subs && r.nextHandle == s.nextHandle
    ensures forall k :: k in s.subs ==> s.subs[k] in r.disposed
    ensures forall h :: h in r.disposed <==> h in s.disposed || h in s.subs.Values
  {
    Session(s.subs, s.disposed + s.subs.Values, s.nextHandle)
  }

  /** Both ends of the connection tear down; doing it twice is doing it once. */
  lemma TeardownIdempotent(s: Session)
    ensures Teardown(Teardown(s)) == Teardown(s)
  {
  }

  /** The invariant of a live session: its keys are supported stocks, each
      maps to a distinct attachment that was allocated and is not disposed,
      and every attachment ever allocated is either in the table or disposed. */
  ghost predicate Valid(s: Session) {
    && KeysSupported(s)
    && (forall k :: k in s.subs ==> s.subs[k] < s.nextHandle && s.subs[k] !in s.disposed)
    && (forall h :: h in s.disposed ==> h < s.nextHandle)
    && (forall k1, k2 :: k1 in s.subs && k2 in s.subs && k1 != k2 ==> s.subs[k1] != s.subs[k2])
    && Accounted(s)
  }

  /** Every key of the table is a stock of the universe. */
  ghost predicate KeysSupported(s: Session) {
    forall k :: k in s.subs ==> k in Feed.Stocks
  }

  /** No attachment is leaked: each one allocated so far is in the table or disposed. */
  ghost predicate Accounted(s: Session) {
    forall h :: 0 <= h < s.nextHandle ==> h in s.disposed || h in s.subs.Values
  }

  lemma FreshValid()
    ensures Valid(Fresh())
  {
  }

  lemma StocksAreUppercase()
    ensures forall k :: k in Feed.Stocks ==> NoLowercase(k)
  {
    assert NoLowercase("GOOG") && NoLowercase("TSLA") && NoLowercase("AMZN");
    assert NoLowercase("META") && NoLowercase("NVDA");
  }

  /** Every key of the table is an upper-case supported stock. */
  lemma KeysAreUppercaseStocks(s: Session)
    requires KeysSupported(s)
    ensures forall k :: k in s.subs ==> k in Feed.Stocks && NoLowercase(k)
  {
    StocksAreUppercase();
  }

  lemma SubscribeAccounted(s: Session, stock: string)
    requires Accounted(s)
    ensures Accounted(ApplySubscribe(s, stock).session)
  {
    var r := ApplySubscribe(s, stock).session;
    if stock in Feed.Stocks && stock !in s.subs {
      forall h | 0 <= h < r.nextHandle
        ensures h in r.disposed || h in r.subs.Values
      {
        if h == s.nextHandle {
          assert r.subs[stock] == h;
        } else if h !in s.disposed {
          var k :| k in s.subs && s.subs[k] == h;
          assert r.subs[k] == h;
        }
      }
    }
  }

  lemma UnsubscribeAccounted(s: Session, stock: string)
    requires Accounted(s)
    ensures Accounted(ApplyUnsubscribe(s, stock).session)
  {
    var r := ApplyUnsubscribe(s, stock).session;
    if stock in s.subs {
      forall h | 0 <= h < r.nextHandle
        ensures h in r.disposed || h in r.subs.Values
      {
        if h !in r.disposed {
          var k :| k in s.subs && s.subs[k] == h;
          assert k != stock;
          assert r.subs[k] == h;
        }
      }
    }
  }

  lemma SubscribePreservesValid(s: Session, stock: string)
    requires Valid(s)
    ensures Valid(ApplySubscribe(s, stock).session)
  {
    SubscribeAccounted(s, stock);
  }

  lemma UnsubscribePreservesValid(s: Session, stock: string)
    requires Valid(s)
    ensures Valid(ApplyUnsubscribe(s, stock).session)
  {
    UnsubscribeAccounted(s, stock);
  }

  /** Every inbound payload keeps a live session valid. */
  lemma StepPreservesValid(s: Session, raw: string, json: JsonReader)
    requires Valid(s)
    ensures Valid(Step(s, raw, json).session)
  {
    match Parse(raw, json)
    case Failure(_) =>
    case Success(f) =>
      match Interpret(f)
      case None =>
      case Some(Subscribe(stock)) => SubscribePreservesValid(s, stock);
      case Some(Unsubscribe(stock)) => UnsubscribePreservesValid(s, stock);
  }

  /** A first subscribe makes exactly one new attachment, distinct from every
      other and not disposed; repeating it changes nothing and still confirms. */
  lemma SubscribeTwice(s: Session, stock: string)
    requires Valid(s) && stock in Feed.Stocks && stock !in s.subs
    ensures var r1 := ApplySubscribe(s, stock);
            var r2 := ApplySubscribe(r1.session, stock);
            && |r1.session.subs| == |s.subs| + 1
            && r1.session.subs[stock] !in s.subs.Values
            && r1.session.subs[stock] !in r1.session.disposed
            && r2.session == r1.session && r2.attached == None
            && r1.reply == r2.reply == Some(Subscribed(stock))
  {
    var r1 := ApplySubscribe(s, stock);
    assert r1.session.subs.Keys == s.subs.Keys + {stock};
    assert |r1.session.subs.Keys| == |s.subs.Keys| + 1;
  }

  /** Subscribe, unsubscribe, unsubscribe: the second unsubscribe reports that
      the stock is not subscribed and the table is back where it started. */
  lemma SubscribeUnsubscribeTwice(s: Session, stock: string)
    requires Valid(s) && stock in Feed.Stocks && stock !in s.subs
    ensures var r1 := ApplySubscribe(s, stock);
            var r2 := ApplyUnsubscribe(r1.session, stock);
            var r3 := ApplyUnsubscribe(r2.session, stock);
            && r2.reply == Some(Unsubscribed(stock))
            && r3.reply == Some(Error("Not subscribed to: " + stock))
            && r3.session == r2.session
            && r3.session.subs == s.subs
            && r1.session.subs[stock] in r3.session.disposed
  {
    var r1 := ApplySubscribe(s, stock);
    var r2 := ApplyUnsubscribe(r1.session, stock);
    assert r2.session.subs.Keys == s.subs.Keys;
  }

  /** What can happen to a session: an inbound payload, or the send side
      ending (whose completion handler tears the session down while inbound
      payloads may still arrive). */
  datatype Event = Received(payload: string) | SendClosed

  /** Handles are never reused and a disposal is never undone. */
  function Advance(s: Session, e: Event, json: JsonReader): (r: Session)
    ensures s.nextHandle <= r.nextHandle && s.disposed <= r.disposed
  {
    match e
    case Received(p) => Step(s, p, json).session
    case SendClosed => Teardown(s)
  }

  function Run(s: Session, es: seq<Event>, json: JsonReader): (r: Session)
    ensures s.nextHandle <= r.nextHandle && s.disposed <= r.disposed
    decreases |es|
  {
    if es == [] then s else Run(Advance(s, es[0], json), es[1..], json)
  }

  /** The session a payload leaves behind depends only on the command it carries. */
  lemma StepSession(s: Session, raw: string, json: JsonReader)
    ensures Step(s, raw, json).session == Dispatch(s, CommandOf(raw, json)).session
  {
  }

  /** A payload that carries a command does exactly what the command does. */
  lemma StepCommand(s: Session, raw: string, json: JsonReader, c: Command)
    requires CommandOf(raw, json) == Some(c)
    ensures Step(s, raw, json) == Dispatch(s, Some(c))
  {
  }

  lemma DispatchAccounted(s: Session, c: Option<Command>)
    requires Accounted(s)
    ensures Accounted(Dispatch(s, c).session)
  {
    match c
    case None =>
    case Some(Subscribe(stock)) => SubscribeAccounted(s, stock);
    case Some(Unsubscribe(stock)) => UnsubscribeAccounted(s, stock);
  }

  lemma AdvanceAccounted(s: Session, e: Event, json: JsonReader)
    requires Accounted(s)
    ensures Accounted(Advance(s, e, json))
  {
    if e.Received? {
      StepSession(s, e.payload, json);
      DispatchAccounted(s, CommandOf(e.payload, json));
    }
  }

  lemma {:induction false} RunAccounted(s: Session, es: seq<Event>, json: JsonReader)
    requires Accounted(s)
    ensures Accounted(Run(s, es, json))
    decreases |es|
  {
    if es != [] {
      AdvanceAccounted(s, es[0], json);
      RunAccounted(Advance(s, es[0], json), es[1..], json);
    }
  }

  lemma DispatchKeysSupported(s: Session, c: Option<Command>)
    requires KeysSupported(s)
    ensures KeysSupported(Dispatch(s, c).session)
  {
  }

  lemma AdvanceKeysSupported(s: Session, e: Event, json: JsonReader)
    requires KeysSupported(s)
    ensures KeysSupported(Advance(s, e, json))
  {
    if e.Received? {
      StepSession(s, e.payload, json);
      DispatchKeysSupported(s, CommandOf(e.payload, json));
    }
  }

  /** Over any interleaving of payloads and send-side teardowns, the table
      only ever holds stocks of the universe. */
  lemma {:induction false} RunKeysSupported(s: Session, es: seq<Event>, json: JsonReader)
    requires KeysSupported(s)
    ensures KeysSupported(Run(s, es, json))
    decreases |es|
  {
    if es != [] {
      AdvanceKeysSupported(s, es[0], json);
      RunKeysSupported(Advance(s, es[0], json), es[1..], json);
    }
  }

  /** Whatever the client sends and whenever the send side ends, every key
      of the table, before or after the final teardown, is an upper-case
      supported stock. */
  lemma RunKeysAreUppercaseStocks(es: seq<Event>, json: JsonReader)
    ensures var s := Run(Fresh(), es, json);
            forall k :: k in s.subs ==> k in Feed.Stocks && NoLowercase(k)
    ensures var f := Teardown(Run(Fresh(), es, json));
            forall k :: k in f.subs ==> k in Feed.Stocks && NoLowercase(k)
  {
    RunKeysSupported(Fresh(), es, json);
    KeysAreUppercaseStocks(Run(Fresh(), es, json));
  }

  /** Whatever the client sends and whenever the send side ends, once the
      receive side finishes and tears down, every attachment the session
      ever made is disposed. */
  lemma NoLeakedAttachments(es: seq<Event>, json: JsonReader)
    ensures var f := Teardown(Run(Fresh(), es, json));
            forall h :: 0 <= h < f.nextHandle ==> h in f.disposed
  {
    RunAccounted(Fresh(), es, json);
  }
}

=== FILE: messages.dfy ===
/** The text messages the server sends to a client: price updates built by
    the price service and the replies of the command interpreter. The model
    keeps each message as a value and renders it to the exact literal text
    only at the edge; RenderInjective shows that no information is lost. */
module Messages {

  datatype Outbound =
    | PriceUpdate(stock: string, price: string)
    | Subscribed(stock: string)
    | Unsubscribed(stock: string)
    | Error(message: string)

  const PricePrefix := "{\"type\":\"PRICE_UPDATE\",\"stock\":\""
  const PriceMiddle := "\",\"price\":"
  const SubscribedPrefix := "{\"type\":\"SUBSCRIBED\",\"stock\":\""
  const UnsubscribedPrefix := "{\"type\":\"UNSUBSCRIBED\",\"stock\":\""
  const ErrorPrefix := "{\"type\":\"ERROR\",\"message\":\""
  const Closing := "\"}"

  /** What every message opens with: a JSON object whose first key is "type". */
  const TypeKey := "{\"type\":\""

  /** The wire text of a message: one JSON object opening with its type.
      The price text is the already formatted number and is embedded as is. */
  function Render(m: Outbound): (r: string)
    ensures |TypeKey| < |r| && r[..|TypeKey|] == TypeKey && r[|r| - 1] == '}'
  {
    match m
    case PriceUpdate(s, p) => PricePrefix + s + PriceMiddle + p + "}"
    case Subscribed(s) => SubscribedPrefix + s + Closing
    case Unsubscribed(s) => UnsubscribedPrefix + s + Closing
    case Error(text) => ErrorPrefix + text + Closing
  }

  predicate QuoteFree(s: string) {
    forall i :: 0 <= i < |s| ==> s[i] != '"'
  }

  /** The stock of a price update is embedded verbatim between quotes, so it
      must not itself contain a quote for the message to be read back. */
  predicate Wellformed(m: Outbound) {
    m.PriceUpdate? ==> QuoteFree(m.stock)
  }

  /** The char right after `{"type":"`, which tells the four kinds apart. */
  function Tag(m: Outbound): char {
    match m
    case PriceUpdate(_, _) => 'P'
    case Subscribed(_) => 'S'
    case Unsubscribed(_) => 'U'
    case Error(_) => 'E'
  }

  lemma PrefixIndex(p: string, x: string, i: nat)
    requires i < |p|
    ensures (p + x)[i] == p[i]
  {
  }

  lemma RenderTag(m: Outbound)
    ensures |Render(m)| > 9 && Render(m)[9] == Tag(m)
  {
    match m
    case PriceUpdate(s, p) =>
      PrefixIndex(PricePrefix, s, 9);
      PrefixIndex(PricePrefix + s, PriceMiddle, 9);
      PrefixIndex(PricePrefix + s + PriceMiddle, p, 9);
      PrefixIndex(PricePrefix + s + PriceMiddle + p, "}", 9);
    case Subscribed(s) =>
      PrefixIndex(SubscribedPrefix, s, 9);
      PrefixIndex(SubscribedPrefix + s, Closing, 9);
    case Unsubscribed(s) =>
      PrefixIndex(UnsubscribedPrefix, s, 9);
      PrefixIndex(UnsubscribedPrefix + s, Closing, 9);
    case Error(text) =>
      PrefixIndex(ErrorPrefix, text, 9);
      PrefixIndex(ErrorPrefix + text, Closing, 9);
  }

  lemma SlotInjective(p: string, x: string, y: string, q: string)
    requires p + x + q == p + y + q
    ensures x == y
  {
    assert |x| == |y|;
    assert x == (p + x + q)[|p|..|p| + |x|];
    assert y == (p + y + q)[|p|..|p| + |y|];
  }

  /** A quote-free word followed by a quote is determined by the text it starts. */
  lemma QuotedPrefixInjective(x: string, y: string, u: string, v: string)
    requires QuoteFree(x) && QuoteFree(y)
    requires x + ['"'] + u == y + ['"'] + v
    ensures x == y && u == v
  {
    var w := x + ['"'] + u;
    assert w[|x|] == '"' && w[|y|] == '"';
    assert forall i :: 0 <= i < |x| ==> w[i] != '"';
    assert forall i :: 0 <= i < |y| ==> w[i] != '"';
    assert |x| == |y|;
    assert x == w[..|x|];
    assert y == (y + ['"'] + v)[..|y|];
    assert u == w[|x| + 1..];
    assert v == (y + ['"'] + v)[|y| + 1..];
  }

  lemma PrefixCancel(p: string, x: string, y: string)
    requires p + x == p + y
    ensures x == y
  {
    assert x == (p + x)[|p|..];
    assert y == (p + y)[|p|..];
  }

  /** Two slots separated by a text that starts with a quote are both
      determined when the first slot is quote-free. */
  lemma TwoSlotInjective(p: string, m: string, e: string, s1: string, t1: string, s2: string, t2: string)
    requires QuoteFree(s1) && QuoteFree(s2)
    requires |m| > 0 && m[0] == '"'
    requires p + s1 + m + t1 + e == p + s2 + m + t2 + e
    ensures s1 == s2 && t1 == t2
  {
    var tail := m[1..];
    assert m == ['"'] + tail;
    var r1, r2 := tail + t1 + e, tail + t2 + e;
    assert p + s1 + m + t1 + e == p + (s1 + ['"'] + r1);
    assert p + s2 + m + t2 + e == p + (s2 + ['"'] + r2);
    PrefixCancel(p, s1 + ['"'] + r1, s2 + ['"'] + r2);
    QuotedPrefixInjective(s1, s2, r1, r2);
    SlotInjective(tail, t1, t2, e);
  }

  /** Two well-formed messages with the same text are the same message: a
      client can recover the kind, the stock and the price from the wire. */
  lemma RenderInjective(a: Outbound, b: Outbound)
    requires Wellformed(a) && Wellformed(b)
    requires Render(a) == Render(b)
    ensures a == b
  {
    RenderTag(a);
    RenderTag(b);
    match a
    case PriceUpdate(s1, p1) =>
      assert |PriceMiddle| > 0 && PriceMiddle[0] == '"';
      TwoSlotInjective(PricePrefix, PriceMiddle, "}", s1, p1, b.stock, b.price);
    case Subscribed(s1) =>
      SlotInjective(SubscribedPrefix, s1, b.stock, Closing);
    case Unsubscribed(s1) =>
      SlotInjective(UnsubscribedPrefix, s1, b.stock, Closing);
    case Error(t1) =>
      SlotInjective(ErrorPrefix, t1, b.message, Closing);
  }
}

=== FILE: text.dfy ===
/** The java.lang.String operations the command interpreter relies on:
    trim, startsWith, toUpperCase and equalsIgnoreCase. Case mapping is
    modelled for the ASCII letters only. */
module Text {

  /** String.trim removes every leading and trailing char whose code is at most U+0020. */
  predicate IsTrimmable(c: char) {
    c <= ' '
  }

  predicate AllTrimmable(s: string) {
    forall i :: 0 <= i < |s| ==> IsTrimmable(s[i])
  }

  /** Neither end of s is a char that trim would remove. */
  predicate IsTrimmed(s: string) {
    s == [] || (!IsTrimmable(s[0]) && !IsTrimmable(s[|s| - 1]))
  }

  /** Drops the leading trimmable chars. */
  function TrimStart(s: string): (r: string)
    ensures |r| <= |s| && r == s[|s| - |r|..]
    ensures AllTrimmable(s[..|s| - |r|])
    ensures r == [] || !IsTrimmable(r[0])
  {
    if |s| > 0 && IsTrimmable(s[0]) then TrimStart(s[1..]) else s
  }

  /** Drops the trailing trimmable chars. */
  function TrimEnd(s: string): (r: string)
    ensures |r| <= |s| && r == s[..|r|]
    ensures AllTrimmable(s[|r|..])
    ensures r == [] || !IsTrimmable(r[|r| - 1])
  {
    if |s| > 0 && IsTrimmable(s[|s| - 1]) then
      var r := TrimEnd(s[..|s| - 1]);
      assert s[|r|..] == s[..|s| - 1][|r|..] + [s[|s| - 1]];
      r
    else s
  }

  /** String.trim. */
  function Trim(s: string): (r: string)
    ensures IsTrimmed(r)
    ensures |r| <= |s|
  {
    TrimEnd(TrimStart(s))
  }

  lemma {:induction false} TrimStartSkips(a: string, t: string)
    requires AllTrimmable(a)
    ensures TrimStart(a + t) == TrimStart(t)
    decreases |a|
  {
    if a == [] {
      assert a + t == t;
    } else {
      assert (a + t)[1..] == a[1..] + t;
      TrimStartSkips(a[1..], t);
    }
  }

  lemma {:induction false} TrimEndSkips(t: string, b: string)
    requires AllTrimmable(b)
    ensures TrimEnd(t + b) == TrimEnd(t)
    decreases |b|
  {
    if b == [] {
      assert t + b == t;
    } else {
      assert (t + b)[..|t + b| - 1] == t + b[..|b| - 1];
      TrimEndSkips(t, b[..|b| - 1]);
    }
  }

  lemma TrimStartKeeps(s: string)
    requires s != [] && !IsTrimmable(s[0])
    ensures TrimStart(s) == s
  {
  }

  lemma TrimEndKeeps(s: string)
    requires s != [] && !IsTrimmable(s[|s| - 1])
    ensures TrimEnd(s) == s
  {
  }

  /** Trim is characterised independently of its definition: whatever lies
      between a run of removable chars on each side, and does not itself
      start or end with one, is exactly what trim returns. */
  lemma TrimSurrounded(a: string, m: string, b: string)
    requires AllTrimmable(a) && AllTrimmable(b) && IsTrimmed(m)
    ensures Trim(a + m + b) == m
  {
    assert a + m + b == a + (m + b);
    TrimStartSkips(a, m + b);
    if m == [] {
      assert m + b == b + [];
      TrimStartSkips(b, []);
      assert TrimStart(a + m + b) == [];
    } else {
      assert (m + b)[0] == m[0];
      TrimStartKeeps(m + b);
      TrimEndSkips(m, b);
      TrimEndKeeps(m);
      assert TrimStart(a + m + b) == m + b;
    }
  }

  /** String.startsWith: s is the prefix followed by the rest of s. */
  predicate StartsWith(s: string, prefix: string): (r: bool)
    ensures r <==> |prefix| <= |s| && s == prefix + s[|prefix|..]
  {
    |prefix| <= |s| && s[..|prefix|] == prefix
  }

  /** Any text placed after a prefix starts with it. */
  lemma PrefixedStartsWith(p: string, rest: string)
    ensures StartsWith(p + rest, p)
  {
    assert (p + rest)[..|p|] == p;
  }

  predicate IsLower(c: char) {
    'a' <= c <= 'z'
  }

  /** Character.toUpperCase on the ASCII range; every other char is kept. */
  function UpperChar(c: char): char {
    if IsLower(c) then (c as int - 32) as char else c
  }

  predicate NoLowercase(s: string) {
    forall i :: 0 <= i < |s| ==> !IsLower(s[i])
  }

  /** String.toUpperCase. */
  function ToUpper(s: string): (r: string)
    ensures |r| == |s|
    ensures NoLowercase(r)
    ensures forall i :: 0 <= i < |s| && !IsLower(s[i]) ==> r[i] == s[i]
    ensures forall i :: 0 <= i < |s| && IsLower(s[i]) ==> r[i] as int == s[i] as int - 32
  {
    seq(|s|, i requires 0 <= i < |s| => UpperChar(s[i]))
  }

  /** t is the upper-case form of s, char by char: each ASCII lower-case
      letter is shifted to its capital, 32 code points lower, and every other
      char is kept. */
  predicate IsUpperCaseOf(t: string, s: string) {
    && |t| == |s|
    && (forall i :: 0 <= i < |s| ==> (IsLower(s[i]) ==> t[i] as int == s[i] as int - 32))
    && (forall i :: 0 <= i < |s| ==> (!IsLower(s[i]) ==> t[i] == s[i]))
  }

  /** ToUpper computes exactly the upper-case form, and nothing else does. */
  lemma ToUpperIff(s: string, t: string)
    ensures t == ToUpper(s) <==> IsUpperCaseOf(t, s)
  {
    if IsUpperCaseOf(t, s) {
      var u := ToUpper(s);
      forall i | 0 <= i < |s|
        ensures t[i] == u[i]
      {
        if IsLower(s[i]) {
          assert t[i] as int == u[i] as int;
        }
      }
    }
  }

  /** A string without lower-case letters is its own upper-case form. */
  lemma ToUpperFixes(s: string)
    requires NoLowercase(s)
    ensures ToUpper(s) == s
  {
  }

  lemma ToUpperCons(s: string)
    requires s != []
    ensures ToUpper(s) == [UpperChar(s[0])] + ToUpper(s[1..])
  {
  }

  /** String.equalsIgnoreCase: equal lengths and chars that agree after upper-casing. */
  predicate EqualsIgnoreCase(a: string, b: string): (r: bool)
    ensures r ==> |a| == |b|
    ensures a == b ==> r
    decreases |a|
  {
    |a| == |b| && (a == [] || (UpperChar(a[0]) == UpperChar(b[0]) && EqualsIgnoreCase(a[1..], b[1..])))
  }

  /** Comparing ignoring case is comparing the upper-case forms. */
  lemma {:induction false} EqualsIgnoreCaseIff(a: string, b: string)
    ensures EqualsIgnoreCase(a, b) <==> ToUpper(a) == ToUpper(b)
    decreases |a|
  {
    if |a| != |b| {
      assert |ToUpper(a)| != |ToUpper(b)|;
    } else if a != [] {
      ToUpperCons(a);
      ToUpperCons(b);
      EqualsIgnoreCaseIff(a[1..], b[1..]);
      var ua, ub := ToUpper(a), ToUpper(b);
      if ua == ub {
        assert ua[0] == ub[0];
        assert ua[1..] == ToUpper(a[1..]);
        assert ub[1..] == ToUpper(b[1..]);
      }
    }
  }
}

=== FILE: wrappers.dfy ===
/** Failure-carrying datatypes shared by the other modules. */
module Wrappers {

  /** A value that may be absent: the model of a Java reference that may be null. */
  datatype Option<+T> = None | Some(value: T)

  /** The outcome of a call that may throw: a value, or the error it failed with. */
  datatype Result<+R, +E> = Success(value: R) | Failure(error: E)
}
